=== FILE: README.md ===
# WordCloud.Server — a Dafny model of the generation and retrieval core

WordCloud.Server turns free text into a word-cloud picture. A part-of-speech
segmenter splits the text into (word, tag) tokens; the service drops
function words and short fragments, counts the remaining words, hands the
frequency table and a style configuration to a layout engine, and encodes
the picture as WebP. The current revision (`src/`) stores the picture in an
in-memory cache under a fresh id and answers with a URL that
`GET /result/{id}` later serves; an earlier revision (`Services/`) answered
with the picture itself.

This project models the deterministic, sequential logic of that core:

- `ImageFitter` — fitting a downloaded background image into 2048 pixels
  (`GetProperImageSize`), with C#'s truncating division written out.
- `CutWordService` — the tag blacklist and minimum-length filter over the
  segmenter's tokens.
- `Frequency` — the `GroupBy`/`ToDictionary` word-frequency table as a
  `map<string, nat>`, related to the multiset of the words.
- `Builder` — the word-cloud builder's configuration (one `Option` field per
  `With...` call), opaque images and typefaces, the per-word colour choice,
  and a `Resolver` standing for the network and the decoders.
- `ResultStore` — the memory cache as a state record: one keyspace shared
  by pictures, their `"{id}-quality"` entries and typefaces, a font-download
  counter, and the values handed to the eviction callback.
- `WordCloudService` — the current `GenerateWordCloudAsync` and the option
  precedence it implements (background-derived values first, explicit
  options after them).
- `LegacyWordCloudService` — the earlier `GenerateWordCloud`: options
  forwarded one by one, size only when both dimensions are given, quality
  fixed at 80.

Behaviour of the code worth noting, which the model keeps:

- The fitting limit is the constant 2048; no request-supplied limit exists.
- Fitting may return a zero side for positive input: (5000, 1) fits to
  (2048, 0) (`ImageFitter.FitCanCollapse`, `ImageFitter.FitPositiveIff`).
- The current revision never reads the request's `width` and `height`
  (`WordCloudService.ExplicitSizeIgnored`); without a background image the
  builder's default size is used.
- No check rejects an empty `text`; an empty token stream gives an empty
  frequency table.
- The cache is a single keyspace, so a font URL equal to a result id (or to
  its quality key) replaces that entry; `GetResult` then answers not found
  (or fails on the quality cast). The model keeps this behaviour.

## Model

| member | source | states |
|---|---|---|
| ImageFitter.ProperImageSize | src/Services/WordCloudService.cs:24-41 | both output sides are at most 2048, for every input; the output equals the input exactly when the larger side is at most 2048; for non-negative sides neither side grows or turns negative, and the scaled side is the proportional value rounded down (h*width <= height*2048 < (h+1)*width when the width is clamped, symmetrically when the height is) |
| ImageFitter.TruncDiv | src/Services/WordCloudService.cs:30-35 | C# division by a positive divisor, truncating toward zero: Dafny's division for a non-negative dividend; for a negative one the non-positive quotient q with q*b >= a > (q-1)*b |
| ImageFitter.ScaleSide | src/Services/WordCloudService.cs:30-35 | scaling the shorter side against a longer side above 2048 gives at most 2048, and for a non-negative side at most the side itself, rounded down from the exact proportion |
| ImageFitter.FitBranches | src/Services/WordCloudService.cs:26-37 | a width above 2048 and above the height gives (2048, height*2048/width); otherwise a height above 2048 gives (width*2048/height, 2048), ties included |
| ImageFitter.FitIdempotent | src/Services/WordCloudService.cs:24-41 | fitting an already fitted size returns it unchanged |
| ImageFitter.FitPositiveIff | src/Services/WordCloudService.cs:24-41 | for positive sides the output is positive exactly when no clamping happens or the shorter side times 2048 reaches the longer side |
| ImageFitter.FitCanCollapse | src/Services/WordCloudService.cs:24-41 | (5000, 1) fits to (2048, 0): outputs are not always positive |
| CutWordService.CutWord | src/Services/CutWordService.cs:32-39 | the filtered word list is never longer than the token list |
| CutWordService.Utf16Length | src/Services/CutWordService.cs:35-38 | a word's `Length` in UTF-16 code units lies between its number of characters and twice that |
| CutWordService.Utf16LengthInBmp | src/Services/CutWordService.cs:35-38 | for a word of Basic Multilingual Plane characters the UTF-16 length is the character count |
| CutWordService.SurrogatePairCountsTwice | src/Services/CutWordService.cs:35 | a one-emoji word has length 2, so tagged as a verb it is kept |
| CutWordService.Keep | src/Services/CutWordService.cs:34-38 | a blacklisted tag always drops its token, and an unlisted tag not led by v, a, m or q always keeps it |
| CutWordService.KeepIff | src/Services/CutWordService.cs:34-38 | a token is kept exactly when its tag is not blacklisted and its word's UTF-16 length reaches the minimum of its tag's first character (v, a, m: 2; q: 3; others: 0) |
| CutWordService.BlackListedDropped | src/Services/CutWordService.cs:9-34 | a token whose tag is one of the 20 blacklisted tags is dropped whatever its word length |
| CutWordService.OtherTagsKept | src/Services/CutWordService.cs:33-39 | a non-blacklisted tag whose first character is not v, a, m or q always keeps its token |
| CutWordService.CutWordSingle | src/Services/CutWordService.cs:33-39 | one token contributes its word exactly when it is kept, otherwise nothing |
| CutWordService.CutWordAppend | src/Services/CutWordService.cs:32-39 | filtering a concatenation is the concatenation of the filtered parts, so tokens are judged one by one and order is kept |
| CutWordService.CutWordIsSubsequence | src/Services/CutWordService.cs:32-39 | the output is a subsequence of the tokens' words |
| CutWordService.CutWordMembership | src/Services/CutWordService.cs:32-39 | a word is in the output exactly when some kept token carries it |
| Frequency.Frequencies | src/Services/WordCloudService.cs:112-114 | the table's keys are exactly the distinct words, and each count is that word's multiplicity in the word list, at least 1 |
| Frequency.FrequenciesSum | src/Services/WordCloudService.cs:112-114 | the counts add up to the number of words |
| Frequency.FrequenciesOrderFree | src/Services/WordCloudService.cs:112-114 | two word lists with the same multiset give the same table |
| Frequency.FrequenciesExample | src/Services/WordCloudService.cs:112-114 | ["AI", "AI", "模型", "AI"] gives {"AI": 3, "模型": 1} |
| Builder.ColorFor | src/Services/WordCloudService.cs:106-109 | a per-word colour exists exactly when the palette is non-empty and is then one of the palette's entries |
| Builder.ColorForReachesAll | src/Services/WordCloudService.cs:106-109 | every palette entry can be drawn |
| ResultStore.Set | src/Services/WordCloudService.cs:19-21 | a stored value replaces the key's previous value, which goes to the disposing eviction callback; other keys are unchanged |
| ResultStore.Evict | src/Services/WordCloudService.cs:19-21 | an evicted key leaves the cache, its value goes to the eviction callback, and other keys are unchanged |
| ResultStore.QualityKey | src/Services/WordCloudService.cs:119 | the quality key of an id is the id followed by the suffix "-quality" |
| ResultStore.AcquireFont | src/Services/WordCloudService.cs:63-83 | a cached typeface is returned with no download; on a miss one download happens and a success caches the returned typeface under the URL; a failed download caches nothing |
| ResultStore.SecondAcquisitionHits | src/Services/WordCloudService.cs:68-76 | right after a successful acquisition, acquiring the same URL downloads nothing and returns the same typeface |
| ResultStore.SingleFlight | src/Services/WordCloudService.cs:63-83 | of n serialised acquisitions of one URL at most one downloads and all return the same typeface; an undownloadable URL is downloaded n times, every caller gets nothing, and the cache entries are unchanged |
| ResultStore.AcquireMany | src/Services/WordCloudService.cs:65-82 | n callers serialised by the semaphore run n acquisitions one after another and each receives an answer |
| ResultStore.GetResult | src/Services/WordCloudService.cs:127-137 | not found exactly when the id holds no picture; otherwise the stored picture at the stored quality (0 when the quality key is missing, a cast fault when it holds another kind of value); the store is unchanged |
| ResultStore.StoreResult | src/Services/WordCloudService.cs:117-119 | after storing, fetching the id returns that picture at that quality, and every other key is unchanged |
| ResultStore.FreshStoreFindsNothing | src/Program.cs:11 | a freshly started cache finds no result, and its first acquisition of a font downloads it |
| ResultStore.EvictedResultNotFound | src/Services/WordCloudService.cs:127-137 | a result whose entry has been evicted is not found |
| ResultStore.EvictedFontRefetched | src/Services/WordCloudService.cs:68-76 | after a cached font is evicted it is disposed, and the next acquisition downloads it again |
| WordCloudService.ApplyBackground | src/Services/WordCloudService.cs:50-61 | a background image sets the fitted size, a maximum font size of the shorter fitted side and a blur of that side divided by 144, and nothing else but the image itself |
| WordCloudService.ApplyFontOptions | src/Services/WordCloudService.cs:85-97 | each present font-size, padding, background-colour or blur option sets its field and each absent one leaves it; no other field changes |
| WordCloudService.ApplyStyleOptions | src/Services/WordCloudService.cs:98-109 | each present similarity, stroke, verticality or palette option sets its field and each absent one leaves it; no other field changes |
| WordCloudService.ApplyOptions | src/Services/WordCloudService.cs:85-109 | every explicit option that is present overrides its field, every absent one leaves it; size, font and background image are untouched |
| WordCloudService.Configure | src/Services/WordCloudService.cs:47-109 | size comes only from the fitted background; maximum font size and blur are the explicit option when present, else the background-derived value, else the builder default; the other fields are the options |
| WordCloudService.TokenFrequencies | src/Services/WordCloudService.cs:112-114 | the table's keys are exactly the words that survive the filter, and each count is how often that word survives |
| WordCloudService.ResultUrl | src/Services/WordCloudService.cs:120 | the retrieval URL is the host, then the route "/result/", then the id |
| WordCloudService.BackgroundOf | src/Services/WordCloudService.cs:50-53 | a background is available exactly when the request names a URL that downloads and decodes, and it is the image decoded from that URL |
| WordCloudService.FontOf | src/Services/WordCloudService.cs:63-77 | no font URL gives no typeface; a cached typeface is the one used; on a cache miss the downloaded typeface is used, and none when the download fails |
| WordCloudService.GenerateWordCloud | src/Services/WordCloudService.cs:43-125 | fails, leaving the cache entries and the disposal log as they were, exactly when the background URL or an uncached font URL cannot be fetched; otherwise returns host/result/id and stores under id the picture drawn from `Configure` of the downloaded background and the acquired font and from the filtered word counts, and stores the quality (100 when absent) under the quality key; downloads the font at most once, only when not cached; every other entry, except one under the request's font URL, is left as it was, and on success the only keys added are the id, its quality key and the font URL |
| WordCloudService.GenerateThenFetch | src/Services/WordCloudService.cs:117-133 | fetching the id of a successful generation returns the stored picture at the requested quality, or 100 |
| WordCloudService.GenerateKeepsOtherResults | src/Services/WordCloudService.cs:117-119 | a generation under a fresh id leaves every other result fetchable as before, unless the font URL names that result's keys |
| WordCloudService.BackgroundDerivedDefaults | src/Services/WordCloudService.cs:54-60 | with a background and no explicit overrides, size, maximum font size and blur are the fitted (w, h), min(w, h) and min(w, h)/144 |
| WordCloudService.ExplicitOptionsOverrideBackground | src/Services/WordCloudService.cs:85-97 | an explicit maximum font size or blur replaces the background-derived value |
| WordCloudService.ExplicitSizeIgnored | src/Services/WordCloudService.cs:47-109 | changing the request's width and height does not change the configuration |
| WordCloudService.FontDownloadedOnce | src/Services/WordCloudService.cs:63-83 | after a successful generation with a font URL, a second generation with the same URL succeeds without downloading the font |
| LegacyWordCloudService.ApplyLayoutOptions | Services/WordCloudService.cs:13-26 | the size is set only when both width and height are present; each other present layout option sets its field, each absent one leaves it |
| LegacyWordCloudService.ApplyStyleOptions | Services/WordCloudService.cs:32-41 | each present blur, similarity, stroke-width or palette option sets its field, each absent one leaves it |
| LegacyWordCloudService.Configure | Services/WordCloudService.cs:12-41 | fails exactly when the inline background does not decode; otherwise every field is its option when present and the builder default when absent, the size needs both dimensions, and stroke ratio and verticality stay at their defaults |
| LegacyWordCloudService.GenerateWordCloud | Services/WordCloudService.cs:8-51 | answers with the picture drawn from the configuration and the filtered words, at quality 80, or the decoding failure |
| LegacyWordCloudService.SizeNeedsBothDimensions | Services/WordCloudService.cs:13-14 | with only one of width and height given, the size stays at the builder default |
| LegacyWordCloudService.QualityIgnoresOptions | Services/WordCloudService.cs:49 | any two successful requests are encoded at the same quality, whatever they ask for |
| LegacyWordCloudService.DrawnFromKeptWords | Services/WordCloudService.cs:44-46 | the picture's table counts each kept word by its multiplicity and the counts add up to the number of kept words |

## Left out

- Network I/O (`HttpClient.GetStreamAsync`) and decoding (`SKImage.FromEncodedData`, `SKTypeface.FromStream`, base64): a `Resolver` of maps stands for them; a URL or payload it does not know is a failed download or decode (for the earlier revision's inline payload, see the `LegacyWordCloudService.Configure` line below).
- Rendering and WebP encoding (SkiaSharp): a picture is the record of the configuration and frequency table it is drawn from; encoding is the quality carried in the reply.
- `SKColor.Parse`: colours stay strings; an unparsable colour is not modelled.
- Sliding expiration after two minutes of inactivity: wall-clock time is not modelled; expiry appears only as an explicit `Evict`.
- `SemaphoreSlim`: the guarded check-download-populate block is one atomic step; serialised callers are consecutive steps (`AcquireMany`).
- `Guid.NewGuid` and `Random.Shared`: the id and the random draw are parameters; freshness of the id is assumed only where a property needs it.
- `Similarity`, `StrokeRatio`, `Verticality` are floating point in the source and passed through as `real`.
- The Jieba segmenter and the `CutWordAsync` the current revision calls: `CutWordAsync` is not part of this model; the segmenter's token sequence is an input and the filter of src/Services/CutWordService.cs is applied to it.
- LegacyWordCloudService.Configure: a payload the resolver does not know is answered `DecodeFailed`. In the source, invalid base64 throws at `Convert.FromBase64String`, but valid base64 that is not an image decodes to a null image, which is handed to `WithBackgroundImage` without throwing; what the builder then does is not visible, so that case is not modelled separately.
- A token with an empty tag: the source would fail reading its first character; the model requires every tag to be non-empty.
- ImageFitter.ProperImageSize: integers are unbounded, so the C# int32 overflow of `height * 2048` for sides above 1048575 pixels is not modelled.
- A typeface that decodes to null is not modelled (the source would cache the null and download again next time).
- Background disposal after a successful generation (src/Services/WordCloudService.cs:122), and its absence on failure paths, is not modelled; only values passed to the eviction callback are recorded.
- The per-word colour callback runs inside the layout engine; an empty palette makes `Builder.ColorFor` return nothing, but the resulting render failure is not propagated into `GenerateWordCloud`.
- The earlier revision's `WithFontFile` records the path; loading the font file is not modelled.
- HTTP routing, dependency injection, logging and JSON serialisation (src/Program.cs, src/Models/WordCloudOptions.cs): the request is the `Options.WordCloudOptions` record, which covers the fields both revisions read.

=== FILE: builder.dfy ===
/** The external collaborators as values: decoded images, typefaces, the
    word-cloud builder's configuration, and the rendered picture. The
    layout engine and the image codecs are not modelled; an image or a
    typeface is an opaque handle, and a rendered picture is identified with
    the configuration and frequency table it was drawn from. */
module Builder {
  import opened Wrappers

  /** A decoded raster image with its pixel size. */
  datatype Image = Image(handle: nat, width: nat, height: nat)

  /** A decoded typeface. */
  datatype Typeface = Typeface(handle: nat)

  /** Where the builder takes its font from: a file path (older revision)
      or an already loaded typeface (current revision). */
  datatype FontSource = FontFile(path: string) | Loaded(typeface: Typeface)

  /** What the network and decoders would deliver for a given string: the
      decoded image behind a URL or a base64 payload, and the typeface
      behind a URL. A string that is absent fails to download or decode. */
  datatype Resolver = Resolver(images: map<string, Image>, fonts: map<string, Typeface>)

  /** The builder's configuration: a field is `None` until the matching
      `With...` call sets it, in which case the builder keeps its own
      default. A later call for the same field replaces an earlier one. */
  datatype Config = Config(
    size: Option<(int, int)>,
    maxFontSize: Option<int>,
    minFontSize: Option<int>,
    fontSizeStep: Option<int>,
    padding: Option<int>,
    font: Option<FontSource>,
    backgroundColor: Option<string>,
    backgroundImage: Option<Image>,
    blur: Option<int>,
    similarity: Option<real>,
    strokeWidth: Option<int>,
    strokeRatio: Option<real>,
    verticality: Option<real>,
    colors: Option<seq<string>>,
    strokeColors: Option<seq<string>>)
  {
    function WithSize(width: int, height: int): Config { this.(size := Some((width, height))) }
    function WithMaxFontSize(n: int): Config { this.(maxFontSize := Some(n)) }
    function WithMinFontSize(n: int): Config { this.(minFontSize := Some(n)) }
    function WithFontSizeStep(n: int): Config { this.(fontSizeStep := Some(n)) }
    function WithPadding(n: int): Config { this.(padding := Some(n)) }
    function WithFont(source: FontSource): Config { this.(font := Some(source)) }
    function WithBackground(color: string): Config { this.(backgroundColor := Some(color)) }
    function WithBackgroundImage(image: Image): Config { this.(backgroundImage := Some(image)) }
    function WithBlur(n: int): Config { this.(blur := Some(n)) }
    function WithSimilarity(x: real): Config { this.(similarity := Some(x)) }
    function WithStrokeWidth(n: int): Config { this.(strokeWidth := Some(n)) }
    function WithStrokeRatio(x: real): Config { this.(strokeRatio := Some(x)) }
    function WithVerticality(x: real): Config { this.(verticality := Some(x)) }
    function WithColors(palette: seq<string>): Config { this.(colors := Some(palette)) }
    function WithStrokeColors(palette: seq<string>): Config { this.(strokeColors := Some(palette)) }
  }

  /** A fresh builder: every field at the builder's default. */
  const DefaultConfig: Config :=
    Config(None, None, None, None, None, None, None, None, None, None, None, None, None, None, None)

  /** The picture the layout engine draws from a configuration and a
      word-frequency table. */
  datatype Rendered = Rendered(config: Config, frequencies: map<string, nat>)

  /** The per-word colour callback `palette[Random.Shared.Next(palette.Length)]`,
      with `draw` standing for the random number generator's output. An
      empty palette has no colour to give (the source indexes out of range). */
  function ColorFor(palette: seq<string>, draw: nat): (color: Option<string>)
    ensures color.Some? <==> |palette| > 0
    ensures color.Some? ==> color.value in palette
  {
    if |palette| == 0 then None else Some(palette[draw % |palette|])
  }

  /** Every palette entry can be drawn. */
  lemma ColorForReachesAll(palette: seq<string>, i: nat)
    requires i < |palette|
    ensures ColorFor(palette, i) == Some(palette[i])
  {
  }
}

=== FILE: cut_word_service.dfy ===
/** The token filter of src/Services/CutWordService.cs. The part-of-speech
    segmenter itself is outside the model: its output, a sequence of
    (word, tag) tokens, is the input here. */
module CutWordService {

  /** One segmenter token: the surface word and its part-of-speech tag. */
  datatype Token = Token(word: string, flag: string)

  /** The tags whose tokens are always dropped: adjectives used as
      adverbs, conjunctions, adverbs, interjections, locatives, suffixes,
      prepositions, pronouns, particles, punctuation, modal particles and
      status words. */
  const BlackList: set<string> := {
    "ad", "c", "d", "e", "f", "k", "p", "r", "u", "ud",
    "ug", "uj", "ul", "uv", "uz", "x", "y", "yg", "z", "zg"
  }

  /** The filter reads the first character of every tag it does not reject
      through the blacklist, so every tag must be non-empty. */
  predicate WellTagged(tokens: seq<Token>) {
    forall i :: 0 <= i < |tokens| ==> tokens[i].flag != ""
  }

  /** The length of a word as .NET's `string.Length` reports it: the number
      of UTF-16 code units, so a character outside the Basic Multilingual
      Plane (above U+FFFF) counts twice. */
  function Utf16Length(w: string): (n: nat)
    ensures |w| <= n <= 2 * |w|
  {
    if w == [] then 0
    else (if w[0] as int > 0xFFFF then 2 else 1) + Utf16Length(w[1..])
  }

  /** The filter predicate applied to each token, clause by clause; word
      lengths are UTF-16 lengths. A blacklisted tag always drops its token
      and an unlisted tag not led by `v`, `a`, `m` or `q` always keeps it. */
  predicate Keep(t: Token): (kept: bool)
    requires t.flag != ""
    ensures t.flag in BlackList ==> !kept
    ensures t.flag !in BlackList && t.flag[0] !in "vamq" ==> kept
  {
    && t.flag !in BlackList
    && !(t.flag[0] == 'v' && Utf16Length(t.word) < 2)
    && !(t.flag[0] == 'a' && Utf16Length(t.word) < 2)
    && !(t.flag[0] == 'm' && Utf16Length(t.word) < 2)
    && !(t.flag[0] == 'q' && Utf16Length(t.word) < 3)
  }

  /** Minimum word length, in UTF-16 code units, per leading tag character:
      verbs, adjectives and numerals need two code units, quantifiers
      three, the rest none. */
  function MinWordLength(lead: char): (n: nat)
    ensures lead !in "vamq" ==> n == 0
  {
    if lead == 'v' || lead == 'a' || lead == 'm' then 2
    else if lead == 'q' then 3
    else 0
  }

  /** The words of the tokens, unfiltered. */
  function Words(tokens: seq<Token>): (words: seq<string>)
    ensures |words| == |tokens|
    ensures forall i :: 0 <= i < |tokens| ==> words[i] == tokens[i].word
  {
    if tokens == [] then [] else [tokens[0].word] + Words(tokens[1..])
  }

  /** `CutWord`: the words of the kept tokens, in their original order. */
  function CutWord(tokens: seq<Token>): (words: seq<string>)
    requires WellTagged(tokens)
    ensures |words| <= |tokens|
  {
    if tokens == [] then []
    else (if Keep(tokens[0]) then [tokens[0].word] else []) + CutWord(tokens[1..])
  }

  /** `xs` can be obtained from `ys` by deleting elements. */
  ghost predicate IsSubsequence<T>(xs: seq<T>, ys: seq<T>)
    decreases |ys|
  {
    if xs == [] then true
    else if ys == [] then false
    else (xs[0] == ys[0] && IsSubsequence(xs[1..], ys[1..])) || IsSubsequence(xs, ys[1..])
  }

  /** The filter is the blacklist plus the minimum-length table. */
  lemma KeepIff(t: Token)
    requires t.flag != ""
    ensures Keep(t) <==> t.flag !in BlackList && Utf16Length(t.word) >= MinWordLength(t.flag[0])
  {
  }

  /** Inside the Basic Multilingual Plane the UTF-16 length is the number
      of characters. */
  lemma {:induction false} Utf16LengthInBmp(w: string)
    requires forall i :: 0 <= i < |w| ==> w[i] as int <= 0xFFFF
    ensures Utf16Length(w) == |w|
    decreases |w|
  {
    if w != [] {
      Utf16LengthInBmp(w[1..]);
    }
  }

  /** A single emoji is two UTF-16 code units long, so as a verb it passes
      the two-character minimum. */
  lemma SurrogatePairCountsTwice()
    ensures Utf16Length("\U{1F600}") == 2
    ensures Keep(Token("\U{1F600}", "v"))
  {
    assert "\U{1F600}"[1..] == [];
  }

  /** A blacklisted tag drops its token whatever the word's length. */
  lemma BlackListedDropped(t: Token)
    requires t.flag in BlackList
    ensures t.flag != "" && !Keep(t)
  {
  }

  /** A tag outside the blacklist whose first character is not `v`, `a`,
      `m` or `q` always keeps its token, even an empty word. */
  lemma OtherTagsKept(t: Token)
    requires t.flag != "" && t.flag !in BlackList && t.flag[0] !in "vamq"
    ensures Keep(t)
  {
  }

  /** Filtering distributes over concatenation of token streams. */
  lemma {:induction false} CutWordAppend(a: seq<Token>, b: seq<Token>)
    requires WellTagged(a) && WellTagged(b)
    ensures WellTagged(a + b)
    ensures CutWord(a + b) == CutWord(a) + CutWord(b)
    decreases |a|
  {
    assert WellTagged(a + b) by {
      forall i | 0 <= i < |a + b|
        ensures (a + b)[i].flag != ""
      {
        if i < |a| { assert (a + b)[i] == a[i]; } else { assert (a + b)[i] == b[i - |a|]; }
      }
    }
    if a == [] {
      assert a + b == b;
    } else {
      assert (a + b)[1..] == a[1..] + b;
      CutWordAppend(a[1..], b);
      assert (a + b)[0] == a[0];
    }
  }

  /** A single token contributes its word exactly when it is kept. */
  lemma CutWordSingle(t: Token)
    requires t.flag != ""
    ensures WellTagged([t])
    ensures CutWord([t]) == if Keep(t) then [t.word] else []
  {
    assert [t][1..] == [];
  }

  /** The output keeps the input order: it is a subsequence of the words. */
  lemma {:induction false} CutWordIsSubsequence(tokens: seq<Token>)
    requires WellTagged(tokens)
    ensures IsSubsequence(CutWord(tokens), Words(tokens))
    decreases |tokens|
  {
    if tokens != [] {
      CutWordIsSubsequence(tokens[1..]);
      var rest := CutWord(tokens[1..]);
      if Keep(tokens[0]) {
        assert CutWord(tokens)[1..] == rest;
      } else if rest != [] {
        assert CutWord(tokens) == rest;
      }
    }
  }

  /** A word is in the output exactly when some kept token carries it. */
  lemma {:induction false} CutWordMembership(tokens: seq<Token>, w: string)
    requires WellTagged(tokens)
    ensures w in CutWord(tokens) <==>
              exists i :: 0 <= i < |tokens| && Keep(tokens[i]) && tokens[i].word == w
    decreases |tokens|
  {
    if tokens != [] {
      CutWordMembership(tokens[1..], w);
      if w in CutWord(tokens[1..]) {
        var j :| 0 <= j < |tokens[1..]| && Keep(tokens[1..][j]) && tokens[1..][j].word == w;
        assert tokens[j + 1] == tokens[1..][j];
      }
      if exists i :: 0 <= i < |tokens| && Keep(tokens[i]) && tokens[i].word == w {
        var i :| 0 <= i < |tokens| && Keep(tokens[i]) && tokens[i].word == w;
        if i > 0 {
          assert tokens[1..][i - 1] == tokens[i];
        }
      }
    }
  }
}

=== FILE: frequency.dfy ===
/** The word-frequency table: `GroupBy(x => x).ToDictionary(g => g.Key,
    g => g.Count())` over the filtered words. */
module Frequency {

  /** Word frequencies, built by counting the words left to right. Each
      key is a distinct word and its count is that word's multiplicity. */
  function Frequencies(words: seq<string>): (table: map<string, nat>)
    ensures table.Keys == set w | w in words
    ensures forall w :: w in table ==> table[w] == multiset(words)[w] && table[w] >= 1
    decreases |words|
  {
    if words == [] then map[]
    else
      var prefix := words[..|words| - 1];
      var last := words[|words| - 1];
      assert words == prefix + [last];
      var rest := Frequencies(prefix);
      rest[last := (if last in rest then rest[last] else 0) + 1]
  }

  /** The sum of the counts of a table. */
  ghost function SumCounts(table: map<string, nat>): nat
    decreases |table|
  {
    if table == map[] then 0
    else
      var k :| k in table;
      table[k] + SumCounts(table - {k})
  }

  /** The sum may be split at any key, not only the one `SumCounts` picks. */
  lemma {:induction false} SumCountsRemove(table: map<string, nat>, k: string)
    requires k in table
    ensures SumCounts(table) == table[k] + SumCounts(table - {k})
    decreases |table|
  {
    var j :| j in table && SumCounts(table) == table[j] + SumCounts(table - {j});
    if j != k {
      var rest := table - {j};
      assert |rest| < |table| by { assert rest.Keys == table.Keys - {j}; }
      SumCountsRemove(rest, k);
      var both := table - {k} - {j};
      assert rest - {k} == both;
      var restK := table - {k};
      assert |restK| < |table| by { assert restK.Keys == table.Keys - {k}; }
      SumCountsRemove(restK, j);
      assert restK - {j} == both;
    }
  }

  /** Incrementing one count raises the sum by one. */
  lemma SumCountsIncrement(table: map<string, nat>, w: string)
    ensures var bumped := table[w := (if w in table then table[w] else 0) + 1];
            SumCounts(bumped) == SumCounts(table) + 1
  {
    var bumped := table[w := (if w in table then table[w] else 0) + 1];
    SumCountsRemove(bumped, w);
    if w in table {
      SumCountsRemove(table, w);
      assert bumped - {w} == table - {w};
    } else {
      assert bumped - {w} == table;
    }
  }

  /** Every word is counted once: the counts sum to the number of words. */
  lemma {:induction false} FrequenciesSum(words: seq<string>)
    ensures SumCounts(Frequencies(words)) == |words|
    decreases |words|
  {
    if words != [] {
      var prefix := words[..|words| - 1];
      var last := words[|words| - 1];
      var rest := Frequencies(prefix);
      assert Frequencies(words) == rest[last := (if last in rest then rest[last] else 0) + 1];
      FrequenciesSum(prefix);
      SumCountsIncrement(rest, last);
    }
  }

  /** The order of the words does not matter: the table only depends on
      their multiset. */
  lemma FrequenciesOrderFree(xs: seq<string>, ys: seq<string>)
    requires multiset(xs) == multiset(ys)
    ensures Frequencies(xs) == Frequencies(ys)
  {
    var a, b := Frequencies(xs), Frequencies(ys);
    forall w
      ensures w in a <==> w in b
    {
      assert w in xs <==> w in multiset(xs);
      assert w in ys <==> w in multiset(ys);
    }
  }

  /** Example: three "AI" and one "模型" give counts 3 and 1. */
  lemma FrequenciesExample()
    ensures Frequencies(["AI", "AI", "模型", "AI"]) == map["AI" := 3, "模型" := 1]
  {
  }
}

=== FILE: image_fitter.dfy ===
/** The image-fitting arithmetic applied to a downloaded background image
    (`GetProperImageSize` in src/Services/WordCloudService.cs). */
module ImageFitter {

  /** The hard-coded largest side, in pixels, of a rendered image. */
  const MaxSide: int := 2048

  function Max(a: int, b: int): (m: int)
    ensures m >= a && m >= b && (m == a || m == b)
  {
    if a >= b then a else b
  }

  function Min(a: int, b: int): (m: int)
    ensures m <= a && m <= b && (m == a || m == b)
  {
    if a <= b then a else b
  }

  /** C# integer division by a positive divisor: it truncates toward zero,
      whereas Dafny's `/` floors for a negative dividend. */
  function TruncDiv(a: int, b: int): (q: int)
    requires b > 0
    ensures 0 <= a ==> q == a / b
    ensures a < 0 ==> q <= 0 && q * b >= a && (q - 1) * b < a
  {
    if a >= 0 then a / b
    else
      TruncatedNegative(a, b);
      -((-a) / b)
  }

  /** Truncating a negative dividend: the quotient `-((-a) / b)` is the
      least multiple count not below `a`. */
  lemma TruncatedNegative(a: int, b: int)
    requires a < 0 && 0 < b
    ensures var q := -((-a) / b);
            q <= 0 && q * b >= a && (q - 1) * b < a
  {
    var m := (-a) / b;
    FloorDivBounds(-a, b);
    assert (-m) * b == -(m * b);
    assert (-m - 1) * b == -((m + 1) * b);
  }

  /** The floor quotient of a non-negative dividend brackets it:
      `(a / b) * b <= a < (a / b + 1) * b`. */
  lemma FloorDivBounds(a: int, b: int)
    requires 0 <= a && 0 < b
    ensures (a / b) * b <= a < (a / b + 1) * b
  {
    var q, r := a / b, a % b;
    assert a == q * b + r && 0 <= r < b;
    assert (q + 1) * b == q * b + b;
  }

  /** Output size for a background image of `width` x `height`: a larger
      side above `MaxSide` is clamped to `MaxSide` and the other side is
      scaled by the same factor with truncating division; on a tie the
      height is the side that is clamped. For non-negative sides no side
      grows, and the scaled side is the proportional value rounded down. */
  function ProperImageSize(width: int, height: int): (size: (int, int))
    ensures size.0 <= MaxSide && size.1 <= MaxSide
    ensures Max(width, height) <= MaxSide <==> size == (width, height)
    ensures 0 <= width && 0 <= height ==> 0 <= size.0 <= width && 0 <= size.1 <= height
    ensures 0 <= height && MaxSide < width && height < width ==>
              size.0 == MaxSide && size.1 * width <= height * MaxSide < (size.1 + 1) * width
    ensures 0 <= width && MaxSide < height && width <= height ==>
              size.1 == MaxSide && size.0 * height <= width * MaxSide < (size.0 + 1) * height
  {
    if Max(width, height) > MaxSide then
      if width > height then
        ScaleSide(height, width);
        (MaxSide, TruncDiv(height * MaxSide, width))
      else
        ScaleSide(width, height);
        (TruncDiv(width * MaxSide, height), MaxSide)
    else
      (width, height)
  }

  /** Scaling the shorter side `short` of an image whose longer side `long`
      exceeds `MaxSide`: the result is at most `MaxSide`, and for a
      non-negative side it is at most `short` and is `short * MaxSide / long`
      rounded down. */
  lemma ScaleSide(short: int, long: int)
    requires MaxSide < long && short <= long
    ensures TruncDiv(short * MaxSide, long) <= MaxSide
    ensures 0 <= short ==>
              var r := TruncDiv(short * MaxSide, long);
              0 <= r <= short && r * long <= short * MaxSide < (r + 1) * long
  {
    ScaleSideWithinLimit(short, long);
    if 0 <= short {
      ScaleSideProportional(short, long);
    }
  }

  /** The scaled side never exceeds `MaxSide`. */
  lemma ScaleSideWithinLimit(short: int, long: int)
    requires MaxSide < long && short <= long
    ensures TruncDiv(short * MaxSide, long) <= MaxSide
  {
    MulMono(short, long, MaxSide);
    TruncDivBelow(short * MaxSide, long, MaxSide);
  }

  /** A non-negative shorter side scales to the floor of the exact
      proportion, which is at most the side itself. */
  lemma ScaleSideProportional(short: int, long: int)
    requires MaxSide < long && 0 <= short <= long
    ensures var r := TruncDiv(short * MaxSide, long);
            0 <= r <= short && r * long <= short * MaxSide < (r + 1) * long
  {
    var a := short * MaxSide;
    var r := a / long;
    FloorDivBounds(a, long);
    MulMono(MaxSide, long, short);
    DivAtMost(a, long, short);
  }

  /** Multiplying both sides of `x <= y` by a non-negative factor. */
  lemma MulMono(x: int, y: int, b: int)
    requires x <= y && 0 <= b
    ensures x * b <= y * b
  {
    assert y * b - x * b == (y - x) * b;
  }

  /** If `a <= b * k` then the truncated quotient `a / b` is at most `k`. */
  lemma DivAtMost(a: int, b: int, k: int)
    requires 0 <= a && 0 < b && a <= b * k
    ensures a / b <= k
  {
    var q := a / b;
    assert a == q * b + a % b;
    if q > k {
      MulMono(k + 1, q, b);
      assert false;
    }
  }

  lemma TruncDivBelow(a: int, b: int, k: int)
    requires 0 < b && a <= b * k && 0 <= k
    ensures TruncDiv(a, b) <= k
  {
    if a >= 0 {
      DivAtMost(a, b, k);
    }
  }

  /** The two scaling branches, written with the source's own formulas
      (for non-negative sides truncation and Dafny's division agree). */
  lemma FitBranches(width: int, height: int)
    requires 0 <= width && 0 <= height
    ensures width > height && width > MaxSide ==>
              ProperImageSize(width, height) == (MaxSide, height * MaxSide / width)
    ensures width <= height && height > MaxSide ==>
              ProperImageSize(width, height) == (width * MaxSide / height, MaxSide)
  {
  }

  /** Fitting an already fitted size changes nothing, for every input. */
  lemma FitIdempotent(width: int, height: int)
    ensures var (w, h) := ProperImageSize(width, height);
            ProperImageSize(w, h) == (w, h)
  {
  }

  /** A truncated quotient is positive exactly when the dividend reaches
      the divisor. */
  lemma DivPositiveIff(a: int, b: int)
    requires 0 <= a && 0 < b
    ensures a / b > 0 <==> a >= b
  {
    if a >= b {
      assert a == (a / b) * b + a % b;
    }
  }

  /** Positive sides stay positive exactly when the shorter side, scaled by
      `MaxSide`, still reaches the longer side; otherwise the shorter side
      collapses to 0. */
  lemma FitPositiveIff(width: int, height: int)
    requires 0 < width && 0 < height
    ensures var (w, h) := ProperImageSize(width, height);
            (0 < w && 0 < h) <==>
              (Max(width, height) <= MaxSide || Min(width, height) * MaxSide >= Max(width, height))
  {
    if Max(width, height) > MaxSide {
      if width > height {
        DivPositiveIff(height * MaxSide, width);
      } else {
        DivPositiveIff(width * MaxSide, height);
      }
    }
  }

  /** A very wide, one-pixel-high image fits to a zero height. */
  lemma FitCanCollapse()
    ensures ProperImageSize(5000, 1) == (2048, 0)
  {
  }
}

=== FILE: legacy_word_cloud_service.dfy ===
/** The earlier revision of the word-cloud service
    (Services/WordCloudService.cs): options are forwarded to the builder
    one by one, the background image arrives inline as base64, and the
    picture is returned directly, always encoded at quality 80. */
module LegacyWordCloudService {
  import opened Wrappers
  import opened CutWordService
  import opened Frequency
  import opened Builder
  import opened Options

  /** The fixed WebP quality of this revision. */
  const EncodeQuality: int := 80

  /** The answer of `POST /wordcloud`: the encoded picture, or the failure
      to decode the inline background image. */
  datatype LegacyReply = WebpImage(image: Rendered, quality: int) | DecodeFailed

  /** Size, font sizes, font file, step, padding and background colour.
      The size is set only when both width and height are given. */
  function ApplyLayoutOptions(b: Config, options: WordCloudOptions): (c: Config)
    ensures c.size == (if options.width.Some? && options.height.Some?
                       then Some((options.width.value, options.height.value)) else b.size)
    ensures c.maxFontSize == (if options.maxFontSize.Some? then options.maxFontSize else b.maxFontSize)
    ensures c.minFontSize == (if options.minFontSize.Some? then options.minFontSize else b.minFontSize)
    ensures c.font == (if options.fontPath.Some? then Some(FontFile(options.fontPath.value)) else b.font)
    ensures c.fontSizeStep == (if options.fontSizeStep.Some? then options.fontSizeStep else b.fontSizeStep)
    ensures c.padding == (if options.padding.Some? then options.padding else b.padding)
    ensures c.backgroundColor == (if options.backgroundColor.Some? then options.backgroundColor else b.backgroundColor)
    ensures c.(size := b.size, maxFontSize := b.maxFontSize, minFontSize := b.minFontSize, font := b.font,
               fontSizeStep := b.fontSizeStep, padding := b.padding, backgroundColor := b.backgroundColor) == b
  {
    var b1 := if options.width.Some? && options.height.Some?
              then b.WithSize(options.width.value, options.height.value) else b;
    var b2 := if options.maxFontSize.Some? then b1.WithMaxFontSize(options.maxFontSize.value) else b1;
    var b3 := if options.minFontSize.Some? then b2.WithMinFontSize(options.minFontSize.value) else b2;
    var b4 := if options.fontPath.Some? then b3.WithFont(FontFile(options.fontPath.value)) else b3;
    var b5 := if options.fontSizeStep.Some? then b4.WithFontSizeStep(options.fontSizeStep.value) else b4;
    var b6 := if options.padding.Some? then b5.WithPadding(options.padding.value) else b5;
    if options.backgroundColor.Some? then b6.WithBackground(options.backgroundColor.value) else b6
  }

  /** Blur, similarity, stroke width and the two colour palettes. */
  function ApplyStyleOptions(b: Config, options: WordCloudOptions): (c: Config)
    ensures c.blur == (if options.backgroundImageBlur.Some? then options.backgroundImageBlur else b.blur)
    ensures c.similarity == (if options.similarity.Some? then options.similarity else b.similarity)
    ensures c.strokeWidth == (if options.strokeWidth.Some? then options.strokeWidth else b.strokeWidth)
    ensures c.colors == (if options.colors.Some? then options.colors else b.colors)
    ensures c.strokeColors == (if options.strokeColors.Some? then options.strokeColors else b.strokeColors)
    ensures c.(blur := b.blur, similarity := b.similarity, strokeWidth := b.strokeWidth,
               colors := b.colors, strokeColors := b.strokeColors) == b
  {
    var b1 := if options.backgroundImageBlur.Some? then b.WithBlur(options.backgroundImageBlur.value) else b;
    var b2 := if options.similarity.Some? then b1.WithSimilarity(options.similarity.value) else b1;
    var b3 := if options.strokeWidth.Some? then b2.WithStrokeWidth(options.strokeWidth.value) else b2;
    var b4 := if options.colors.Some? then b3.WithColors(options.colors.value) else b3;
    if options.strokeColors.Some? then b4.WithStrokeColors(options.strokeColors.value) else b4
  }

  /** The builder configuration of a request, starting from a fresh
      builder. `net.images` stands for base64 decoding followed by image
      decoding; a payload it does not know fails to decode. */
  function Configure(options: WordCloudOptions, net: Resolver): (c: Option<Config>)
    ensures c.None? <==> options.backgroundImage.Some? && options.backgroundImage.value !in net.images
    ensures c.Some? ==>
              && c.value.size == (if options.width.Some? && options.height.Some?
                                  then Some((options.width.value, options.height.value)) else None)
              && c.value.maxFontSize == options.maxFontSize
              && c.value.minFontSize == options.minFontSize
              && c.value.font == (if options.fontPath.Some? then Some(FontFile(options.fontPath.value)) else None)
              && c.value.fontSizeStep == options.fontSizeStep
              && c.value.padding == options.padding
              && c.value.backgroundColor == options.backgroundColor
              && c.value.backgroundImage == (if options.backgroundImage.Some?
                                             then Some(net.images[options.backgroundImage.value]) else None)
              && c.value.blur == options.backgroundImageBlur
              && c.value.similarity == options.similarity
              && c.value.strokeWidth == options.strokeWidth
              && c.value.strokeRatio.None? && c.value.verticality.None?
              && c.value.colors == options.colors
              && c.value.strokeColors == options.strokeColors
  {
    var payload := options.backgroundImage;
    if payload.Some? && payload.value !in net.images then None
    else
      var b1 := ApplyLayoutOptions(DefaultConfig, options);
      var b2 := if payload.Some? then b1.WithBackgroundImage(net.images[payload.value]) else b1;
      Some(ApplyStyleOptions(b2, options))
  }

  /** `GenerateWordCloud`: configure, count the filtered words of the
      segmenter's `tokens`, draw, and answer with the picture at quality 80. */
  function GenerateWordCloud(options: WordCloudOptions, net: Resolver, tokens: seq<Token>): (reply: LegacyReply)
    requires WellTagged(tokens)
    ensures reply.DecodeFailed? <==> Configure(options, net).None?
    ensures reply.WebpImage? ==>
              && reply.quality == 80
              && reply.image.config == Configure(options, net).value
              && (forall w :: w in reply.image.frequencies <==> w in CutWord(tokens))
  {
    match Configure(options, net)
    case None => DecodeFailed
    case Some(config) => WebpImage(Rendered(config, Frequencies(CutWord(tokens))), EncodeQuality)
  }

  /** A size given by only one dimension is dropped: the builder keeps its
      default size. */
  lemma SizeNeedsBothDimensions(options: WordCloudOptions, net: Resolver)
    requires options.width.None? || options.height.None?
    requires Configure(options, net).Some?
    ensures Configure(options, net).value.size.None?
  {
  }

  /** The encode quality ignores the request: two requests that both
      succeed are encoded at the same quality, whatever they ask for. */
  lemma QualityIgnoresOptions(o1: WordCloudOptions, o2: WordCloudOptions, net: Resolver, tokens: seq<Token>)
    requires WellTagged(tokens)
    requires GenerateWordCloud(o1, net, tokens).WebpImage? && GenerateWordCloud(o2, net, tokens).WebpImage?
    ensures GenerateWordCloud(o1, net, tokens).quality == GenerateWordCloud(o2, net, tokens).quality
  {
  }

  /** The picture is drawn from the frequency table of the kept words:
      every kept word has its count, and the counts add up to the number of
      kept words. */
  lemma {:induction false} DrawnFromKeptWords(options: WordCloudOptions, net: Resolver, tokens: seq<Token>)
    requires WellTagged(tokens)
    requires GenerateWordCloud(options, net, tokens).WebpImage?
    ensures var table := GenerateWordCloud(options, net, tokens).image.frequencies;
            && (forall w :: w in table ==> table[w] == multiset(CutWord(tokens))[w])
            && SumCounts(table) == |CutWord(tokens)|
  {
    FrequenciesSum(CutWord(tokens));
  }
}

=== FILE: options.dfy ===
/** The JSON request body of `POST /wordcloud`, covering the fields read by
    both revisions of the word-cloud service. Every field except `text` is
    optional. */
module Options {
  import opened Wrappers

  datatype WordCloudOptions = WordCloudOptions(
    text: string,
    width: Option<int>,
    height: Option<int>,
    maxFontSize: Option<int>,
    minFontSize: Option<int>,
    fontPath: Option<string>,
    fontUrl: Option<string>,
    fontSizeStep: Option<int>,
    padding: Option<int>,
    backgroundColor: Option<string>,
    backgroundImage: Option<string>,
    backgroundImageUrl: Option<string>,
    backgroundImageBlur: Option<int>,
    similarity: Option<real>,
    strokeWidth: Option<int>,
    strokeRatio: Option<real>,
    verticality: Option<real>,
    colors: Option<seq<string>>,
    strokeColors: Option<seq<string>>,
    quality: Option<int>)
}

=== FILE: result_store.dfy ===
/** The service's in-memory cache as a sequential state machine. One
    keyspace holds three kinds of value: finished pictures under their
    generation id, their encode quality under "{id}-quality", and
    downloaded typefaces under their URL. Every replaced or evicted value
    is handed to the eviction callback, which disposes it when it is a
    picture or a typeface; the model keeps the sequence of such values.
    The font download runs inside one global critical section, modelled
    as one atomic step. */
module ResultStore {
  import opened Wrappers
  import opened Builder

  /** A cached value. */
  datatype Entry = ImageEntry(image: Rendered) | QualityEntry(quality: int) | FontEntry(typeface: Typeface)

  /** The cache contents, the number of font downloads started so far, and
      the values the eviction callback has received so far, oldest first. */
  datatype Store = Store(entries: map<string, Entry>, fontFetches: nat, evicted: seq<Entry>)

  /** The cache as the application starts with it: no entries, no
      downloads, nothing disposed. */
  const EmptyStore: Store := Store(map[], 0, [])

  /** The answer of `GET /result/{id}`: the picture encoded as WebP at a
      quality, not found, or the cast failure raised when the quality key
      holds a value that is not an integer. */
  datatype ResultReply = WebpFile(image: Rendered, quality: int) | NotFound | QualityCastFault

  const QualitySuffix: string := "-quality"

  /** The key under which the quality of result `id` is stored. */
  function QualityKey(id: string): (key: string)
    ensures |key| == |id| + |QualitySuffix| && key[..|id|] == id
    ensures key[|id|..] == QualitySuffix
  {
    id + QualitySuffix
  }

  /** True when `key` has the shape of a quality key. Generation ids never
      do, since a GUID consists of hex digits and dashes only. */
  predicate EndsWithQualitySuffix(key: string) {
    |key| >= |QualitySuffix| && key[|key| - |QualitySuffix|..] == QualitySuffix
  }

  /** `cache.Set(key, value)`: the value replaces any previous one, and the
      previous one goes to the eviction callback. */
  function Set(s: Store, key: string, value: Entry): (t: Store)
    ensures key in t.entries && t.entries[key] == value
    ensures t.entries.Keys == s.entries.Keys + {key}
    ensures forall k :: k in s.entries && k != key ==> t.entries[k] == s.entries[k]
    ensures t.fontFetches == s.fontFetches
    ensures t.evicted == s.evicted + (if key in s.entries then [s.entries[key]] else [])
  {
    var replaced := if key in s.entries then [s.entries[key]] else [];
    Store(s.entries[key := value], s.fontFetches, s.evicted + replaced)
  }

  /** Removal of an entry (expiry or explicit removal): the entry leaves the
      cache and its value goes to the eviction callback. */
  function Evict(s: Store, key: string): (t: Store)
    ensures key !in t.entries
    ensures t.entries.Keys == s.entries.Keys - {key}
    ensures forall k :: k in t.entries ==> t.entries[k] == s.entries[k]
    ensures t.fontFetches == s.fontFetches
    ensures key in s.entries ==> t.evicted == s.evicted + [s.entries[key]]
    ensures key !in s.entries ==> t == s
  {
    if key in s.entries then Store(s.entries - {key}, s.fontFetches, s.evicted + [s.entries[key]])
    else s
  }

  /** `TryGetValue<SKTypeface>(url)` succeeds: the key holds a typeface. A
      key holding a value of another kind reads as a miss. */
  predicate FontCached(s: Store, url: string) {
    url in s.entries && s.entries[url].FontEntry?
  }

  /** `TryGetValue<SKImage>(id)` succeeds: the key holds a picture. */
  predicate ResultCached(s: Store, id: string) {
    id in s.entries && s.entries[id].ImageEntry?
  }

  /** Font acquisition (check, download on a miss, populate), performed as
      one step under the global semaphore. A failed download propagates as
      `None` and populates nothing. */
  function AcquireFont(s: Store, url: string, net: Resolver): (out: (Store, Option<Typeface>))
    ensures FontCached(s, url) ==> out == (s, Some(s.entries[url].typeface))
    ensures !FontCached(s, url) ==> out.0.fontFetches == s.fontFetches + 1
    ensures out.1.None? <==> !FontCached(s, url) && url !in net.fonts
    ensures out.1.None? ==> out.0.entries == s.entries && out.0.evicted == s.evicted
    ensures out.1.Some? ==> FontCached(out.0, url) && out.0.entries[url].typeface == out.1.value
    ensures !FontCached(s, url) && url in net.fonts ==> out.1 == Some(net.fonts[url])
    ensures out.0.entries.Keys == s.entries.Keys + (if out.1.Some? then {url} else {})
    ensures forall k :: k in s.entries && k != url ==> out.0.entries[k] == s.entries[k]
  {
    if FontCached(s, url) then
      (s, Some(s.entries[url].typeface))
    else
      var fetched := s.(fontFetches := s.fontFetches + 1);
      if url in net.fonts then
        var font := net.fonts[url];
        (Set(fetched, url, FontEntry(font)), Some(font))
      else
        (fetched, None)
  }

  /** `GetResult(id)`: the picture stored under `id`, encoded at the
      quality stored under its quality key. A missing quality key reads as
      0, the default of `int`. The store is left as it was. */
  function GetResult(s: Store, id: string): (out: (Store, ResultReply))
    ensures out.0 == s
    ensures out.1.NotFound? <==> !ResultCached(s, id)
    ensures out.1.WebpFile? ==> ResultCached(s, id) && out.1.image == s.entries[id].image
    ensures out.1.WebpFile? && QualityKey(id) in s.entries ==>
              s.entries[QualityKey(id)] == QualityEntry(out.1.quality)
    ensures out.1.WebpFile? && QualityKey(id) !in s.entries ==> out.1.quality == 0
    ensures out.1.QualityCastFault? <==>
              ResultCached(s, id) && QualityKey(id) in s.entries && !s.entries[QualityKey(id)].QualityEntry?
  {
    if !ResultCached(s, id) then (s, NotFound)
    else
      var image := s.entries[id].image;
      var key := QualityKey(id);
      if key !in s.entries then (s, WebpFile(image, 0))
      else match s.entries[key]
        case QualityEntry(q) => (s, WebpFile(image, q))
        case _ => (s, QualityCastFault)
  }

  /** Storing a finished picture: the picture under `id`, then its quality
      under the quality key. */
  function StoreResult(s: Store, id: string, image: Rendered, quality: int): (t: Store)
    ensures GetResult(t, id).1 == WebpFile(image, quality)
    ensures t.entries.Keys == s.entries.Keys + {id, QualityKey(id)}
    ensures forall k :: k in s.entries && k != id && k != QualityKey(id) ==> t.entries[k] == s.entries[k]
    ensures t.fontFetches == s.fontFetches
  {
    Set(Set(s, id, ImageEntry(image)), QualityKey(id), QualityEntry(quality))
  }

  /** A font that has just been acquired is found in the cache by the next
      acquisition of the same URL: no second download, same typeface. */
  lemma SecondAcquisitionHits(s: Store, url: string, net: Resolver)
    ensures var (t, font) := AcquireFont(s, url, net);
            font.Some? ==> AcquireFont(t, url, net) == (t, font)
  {
  }

  /** `n` acquisitions of one URL in a row, as the semaphore serialises them. */
  function AcquireMany(s: Store, url: string, net: Resolver, n: nat): (out: (Store, seq<Option<Typeface>>))
    ensures |out.1| == n
    decreases n
  {
    if n == 0 then (s, [])
    else
      var (s1, font) := AcquireFont(s, url, net);
      var (s2, fonts) := AcquireMany(s1, url, net, n - 1);
      (s2, [font] + fonts)
  }

  /** Single flight: of `n` serialised acquisitions of one URL, at most the
      first downloads, and every caller receives the same typeface. A URL
      that cannot be downloaded is retried by every caller, since failures
      are not cached. */
  lemma {:induction false} SingleFlight(s: Store, url: string, net: Resolver, n: nat)
    requires n > 0
    ensures var (t, fonts) := AcquireMany(s, url, net, n);
            && (FontCached(s, url) ==> t.fontFetches == s.fontFetches)
            && (!FontCached(s, url) && url in net.fonts ==> t.fontFetches == s.fontFetches + 1)
            && (!FontCached(s, url) && url !in net.fonts ==>
                  && t.fontFetches == s.fontFetches + n
                  && t.entries == s.entries
                  && forall i :: 0 <= i < n ==> fonts[i].None?)
            && (FontCached(s, url) || url in net.fonts ==>
                  fonts[0].Some? && forall i :: 0 <= i < n ==> fonts[i] == fonts[0])
    decreases n
  {
    var (s1, font) := AcquireFont(s, url, net);
    var (t, rest) := AcquireMany(s1, url, net, n - 1);
    assert AcquireMany(s, url, net, n) == (t, [font] + rest);
    if n > 1 {
      SingleFlight(s1, url, net, n - 1);
    }
  }

  /** A freshly started cache finds no result, and its first acquisition
      of any font downloads it. */
  lemma FreshStoreFindsNothing(id: string, url: string, net: Resolver)
    ensures GetResult(EmptyStore, id).1 == NotFound
    ensures AcquireFont(EmptyStore, url, net).0.fontFetches == 1
  {
  }

  /** An evicted result is no longer found. */
  lemma EvictedResultNotFound(s: Store, id: string)
    ensures GetResult(Evict(s, id), id).1 == NotFound
  {
  }

  /** After a font's entry is evicted, the next acquisition downloads it
      again; the evicted typeface went to the eviction callback, which
      disposes it. */
  lemma EvictedFontRefetched(s: Store, url: string, net: Resolver)
    requires FontCached(s, url)
    ensures var t := Evict(s, url);
            && t.evicted == s.evicted + [s.entries[url]]
            && AcquireFont(t, url, net).0.fontFetches == s.fontFetches + 1
  {
  }
}

=== FILE: word_cloud_service.dfy ===
/** The current word-cloud service (src/Services/WordCloudService.cs):
    request normalisation, font and background resolution, frequency
    counting, and the "generate now, fetch later" result store. */
module WordCloudService {
  import opened Wrappers
  import opened ImageFitter
  import opened CutWordService
  import opened Frequency
  import opened Builder
  import opened Options
  import opened ResultStore

  /** Quality recorded for a result when the request names none. */
  const DefaultQuality: int := 100

  /** Divisor turning the fitted image's shorter side into the default blur. */
  const BlurDivisor: int := 144

  /** Why a generation aborted: the background image or the font could not
      be downloaded and decoded. */
  datatype GenerateError = BackgroundUnavailable | FontUnavailable

  /** The answer of `POST /wordcloud`: the URL at which the result can be
      fetched, or the failure. */
  datatype GenerateReply = ResultLink(url: string) | Failed(error: GenerateError)

  /** The values a background image contributes, before any explicit
      option: the fitted size, a maximum font size of the shorter fitted
      side and a blur of that side divided by 144. */
  function ApplyBackground(b: Config, image: Image): (c: Config)
    ensures c.backgroundImage == Some(image)
    ensures c.size == Some(ProperImageSize(image.width, image.height))
    ensures c.maxFontSize == Some(Min(c.size.value.0, c.size.value.1))
    ensures c.blur == Some(Min(c.size.value.0, c.size.value.1) / BlurDivisor)
    ensures c.(size := b.size, maxFontSize := b.maxFontSize, blur := b.blur, backgroundImage := b.backgroundImage) == b
  {
    var (width, height) := ProperImageSize(image.width, image.height);
    b.WithBackgroundImage(image)
      .WithSize(width, height)
      .WithMaxFontSize(Min(width, height))
      .WithBlur(TruncDiv(Min(width, height), BlurDivisor))
  }

  /** The explicit options, applied in the source's order: each present
      option sets its field and each absent one leaves the field as it was. */
  function ApplyOptions(b: Config, options: WordCloudOptions): (c: Config)
    ensures c.maxFontSize == (if options.maxFontSize.Some? then options.maxFontSize else b.maxFontSize)
    ensures c.minFontSize == (if options.minFontSize.Some? then options.minFontSize else b.minFontSize)
    ensures c.fontSizeStep == (if options.fontSizeStep.Some? then options.fontSizeStep else b.fontSizeStep)
    ensures c.padding == (if options.padding.Some? then options.padding else b.padding)
    ensures c.backgroundColor == (if options.backgroundColor.Some? then options.backgroundColor else b.backgroundColor)
    ensures c.blur == (if options.backgroundImageBlur.Some? then options.backgroundImageBlur else b.blur)
    ensures c.similarity == (if options.similarity.Some? then options.similarity else b.similarity)
    ensures c.strokeWidth == (if options.strokeWidth.Some? then options.strokeWidth else b.strokeWidth)
    ensures c.strokeRatio == (if options.strokeRatio.Some? then options.strokeRatio else b.strokeRatio)
    ensures c.verticality == (if options.verticality.Some? then options.verticality else b.verticality)
    ensures c.colors == (if options.colors.Some? then options.colors else b.colors)
    ensures c.strokeColors == (if options.strokeColors.Some? then options.strokeColors else b.strokeColors)
    ensures c.size == b.size && c.font == b.font && c.backgroundImage == b.backgroundImage
  {
    ApplyStyleOptions(ApplyFontOptions(b, options), options)
  }

  /** The font-size, padding, background-colour and blur options. */
  function ApplyFontOptions(b: Config, options: WordCloudOptions): (c: Config)
    ensures c.maxFontSize == (if options.maxFontSize.Some? then options.maxFontSize else b.maxFontSize)
    ensures c.minFontSize == (if options.minFontSize.Some? then options.minFontSize else b.minFontSize)
    ensures c.fontSizeStep == (if options.fontSizeStep.Some? then options.fontSizeStep else b.fontSizeStep)
    ensures c.padding == (if options.padding.Some? then options.padding else b.padding)
    ensures c.backgroundColor == (if options.backgroundColor.Some? then options.backgroundColor else b.backgroundColor)
    ensures c.blur == (if options.backgroundImageBlur.Some? then options.backgroundImageBlur else b.blur)
    ensures c.(maxFontSize := b.maxFontSize, minFontSize := b.minFontSize, fontSizeStep := b.fontSizeStep,
               padding := b.padding, backgroundColor := b.backgroundColor, blur := b.blur) == b
  {
    var b1 := if options.maxFontSize.Some? then b.WithMaxFontSize(options.maxFontSize.value) else b;
    var b2 := if options.minFontSize.Some? then b1.WithMinFontSize(options.minFontSize.value) else b1;
    var b3 := if options.fontSizeStep.Some? then b2.WithFontSizeStep(options.fontSizeStep.value) else b2;
    var b4 := if options.padding.Some? then b3.WithPadding(options.padding.value) else b3;
    var b5 := if options.backgroundColor.Some? then b4.WithBackground(options.backgroundColor.value) else b4;
    if options.backgroundImageBlur.Some? then b5.WithBlur(options.backgroundImageBlur.value) else b5
  }

  /** The style options that follow the blur: similarity, stroke,
      verticality and the two colour palettes. */
  function ApplyStyleOptions(b: Config, options: WordCloudOptions): (c: Config)
    ensures c.similarity == (if options.similarity.Some? then options.similarity else b.similarity)
    ensures c.strokeWidth == (if options.strokeWidth.Some? then options.strokeWidth else b.strokeWidth)
    ensures c.strokeRatio == (if options.strokeRatio.Some? then options.strokeRatio else b.strokeRatio)
    ensures c.verticality == (if options.verticality.Some? then options.verticality else b.verticality)
    ensures c.colors == (if options.colors.Some? then options.colors else b.colors)
    ensures c.strokeColors == (if options.strokeColors.Some? then options.strokeColors else b.strokeColors)
    ensures c.(similarity := b.similarity, strokeWidth := b.strokeWidth, strokeRatio := b.strokeRatio,
               verticality := b.verticality, colors := b.colors, strokeColors := b.strokeColors) == b
  {
    var b1 := if options.similarity.Some? then b.WithSimilarity(options.similarity.value) else b;
    var b2 := if options.strokeWidth.Some? then b1.WithStrokeWidth(options.strokeWidth.value) else b1;
    var b3 := if options.strokeRatio.Some? then b2.WithStrokeRatio(options.strokeRatio.value) else b2;
    var b4 := if options.verticality.Some? then b3.WithVerticality(options.verticality.value) else b3;
    var b5 := if options.colors.Some? then b4.WithColors(options.colors.value) else b4;
    if options.strokeColors.Some? then b5.WithStrokeColors(options.strokeColors.value) else b5
  }

  /** The builder configuration of a request: background-derived values
      first, then the font, then the explicit options, which therefore win.
      The explicit width and height are not read. */
  function Configure(options: WordCloudOptions, background: Option<Image>, font: Option<Typeface>): (c: Config)
    ensures background.Some? ==>
              c.size == Some(ProperImageSize(background.value.width, background.value.height))
    ensures background.None? ==> c.size.None?
    ensures c.backgroundImage == background
    ensures c.maxFontSize == (if options.maxFontSize.Some? then options.maxFontSize
                              else if background.Some? then Some(Min(c.size.value.0, c.size.value.1))
                              else None)
    ensures c.blur == (if options.backgroundImageBlur.Some? then options.backgroundImageBlur
                       else if background.Some? then Some(Min(c.size.value.0, c.size.value.1) / BlurDivisor)
                       else None)
    ensures c.font == (if font.Some? then Some(Loaded(font.value)) else None)
    ensures c.minFontSize == options.minFontSize && c.fontSizeStep == options.fontSizeStep
    ensures c.padding == options.padding && c.backgroundColor == options.backgroundColor
    ensures c.similarity == options.similarity && c.strokeWidth == options.strokeWidth
    ensures c.strokeRatio == options.strokeRatio && c.verticality == options.verticality
    ensures c.colors == options.colors && c.strokeColors == options.strokeColors
  {
    var b1 := if background.Some? then ApplyBackground(DefaultConfig, background.value) else DefaultConfig;
    var b2 := if font.Some? then b1.WithFont(Loaded(font.value)) else b1;
    ApplyOptions(b2, options)
  }

  /** The retrieval URL handed back for a generation id: the host, then
      the `/result/` route, then the id, which can be read back from the
      URL's tail. */
  function ResultUrl(host: string, id: string): (url: string)
    ensures |url| == |host| + 8 + |id|
    ensures url[..|host|] == host && url[|url| - |id|..] == id
    ensures url[|host|..|host| + 8] == "/result/"
  {
    host + "/result/" + id
  }

  /** The word-frequency table of a request's tokens. */
  function TokenFrequencies(tokens: seq<Token>): (table: map<string, nat>)
    requires WellTagged(tokens)
    ensures forall w :: w in table <==> w in CutWord(tokens)
    ensures forall w :: w in table ==> table[w] == multiset(CutWord(tokens))[w]
  {
    Frequencies(CutWord(tokens))
  }

  /** The decoded background a request refers to, when it names one that
      can be downloaded. */
  function BackgroundOf(options: WordCloudOptions, net: Resolver): (image: Option<Image>)
    ensures image.Some? <==> options.backgroundImageUrl.Some? && options.backgroundImageUrl.value in net.images
    ensures image.Some? ==> image.value == net.images[options.backgroundImageUrl.value]
  {
    if options.backgroundImageUrl.Some? && options.backgroundImageUrl.value in net.images
    then Some(net.images[options.backgroundImageUrl.value])
    else None
  }

  /** The typeface a request's font URL yields when acquired through the
      cache in state `s`; no font URL yields none. */
  function FontOf(s: Store, options: WordCloudOptions, net: Resolver): (font: Option<Typeface>)
    ensures options.fontUrl.None? ==> font.None?
    ensures options.fontUrl.Some? && FontCached(s, options.fontUrl.value) ==>
              font == Some(s.entries[options.fontUrl.value].typeface)
    ensures options.fontUrl.Some? && !FontCached(s, options.fontUrl.value) ==>
              font == (if options.fontUrl.value in net.fonts then Some(net.fonts[options.fontUrl.value]) else None)
  {
    if options.fontUrl.Some? then AcquireFont(s, options.fontUrl.value, net).1 else None
  }

  /** `GenerateWordCloudAsync`. `net` stands for the network and the
      decoders, `tokens` for the segmenter's output on `options.text`, and
      `id` for the freshly generated GUID. The background is downloaded
      first, then the font is acquired through the cache, the picture is
      drawn, and picture and quality are stored under `id`. */
  function GenerateWordCloud(s: Store, host: string, options: WordCloudOptions, net: Resolver,
                             tokens: seq<Token>, id: string): (out: (Store, GenerateReply))
    requires WellTagged(tokens)
    ensures options.backgroundImageUrl.Some? && options.backgroundImageUrl.value !in net.images ==>
              out == (s, Failed(BackgroundUnavailable))
    ensures out.1.Failed? ==> out.0.entries == s.entries && out.0.evicted == s.evicted
    ensures forall k :: k in s.entries && k != id && k != QualityKey(id) && options.fontUrl != Some(k) ==>
              k in out.0.entries && out.0.entries[k] == s.entries[k]
    ensures out.1.Failed? <==>
              || (options.backgroundImageUrl.Some? && options.backgroundImageUrl.value !in net.images)
              || (options.fontUrl.Some? && !FontCached(s, options.fontUrl.value)
                  && options.fontUrl.value !in net.fonts)
    ensures out.1.ResultLink? ==>
              && out.1.url == ResultUrl(host, id)
              && ResultCached(out.0, id)
              && QualityKey(id) in out.0.entries
              && out.0.entries[id].image.config == Configure(options, BackgroundOf(options, net), FontOf(s, options, net))
              && out.0.entries[id].image.frequencies == Frequencies(CutWord(tokens))
              && out.0.entries[QualityKey(id)] == QualityEntry(options.quality.GetOr(DefaultQuality))
    ensures out.1.ResultLink? ==>
              out.0.entries.Keys == s.entries.Keys + {id, QualityKey(id)}
                                    + (if options.fontUrl.Some? then {options.fontUrl.value} else {})
    ensures out.0.fontFetches == s.fontFetches +
              (if options.fontUrl.Some? && !FontCached(s, options.fontUrl.value)
                  && !(options.backgroundImageUrl.Some? && options.backgroundImageUrl.value !in net.images)
               then 1 else 0)
  {
    var backgroundUrl := options.backgroundImageUrl;
    if backgroundUrl.Some? && backgroundUrl.value !in net.images then
      (s, Failed(BackgroundUnavailable))
    else
      var background := BackgroundOf(options, net);
      var (s1, font) := if options.fontUrl.Some? then AcquireFont(s, options.fontUrl.value, net) else (s, None);
      if options.fontUrl.Some? && font.None? then
        (s1, Failed(FontUnavailable))
      else
        var config := Configure(options, background, font);
        var image := Rendered(config, TokenFrequencies(tokens));
        var s2 := StoreResult(s1, id, image, options.quality.GetOr(DefaultQuality));
        (s2, ResultLink(ResultUrl(host, id)))
  }

  /** A generation followed by a fetch of its id returns the picture at the
      requested quality, 100 when none was requested. */
  lemma GenerateThenFetch(s: Store, host: string, options: WordCloudOptions, net: Resolver,
                          tokens: seq<Token>, id: string)
    requires WellTagged(tokens)
    ensures var (t, reply) := GenerateWordCloud(s, host, options, net, tokens, id);
            reply.ResultLink? ==>
              && GetResult(t, id).1.WebpFile?
              && GetResult(t, id).1.image == t.entries[id].image
              && GetResult(t, id).1.quality == options.quality.GetOr(100)
  {
  }

  /** A generation under a fresh id leaves every earlier result fetchable
      exactly as before, provided the request's font URL does not name that
      result's keys (fonts and results share one keyspace). */
  lemma GenerateKeepsOtherResults(s: Store, host: string, options: WordCloudOptions, net: Resolver,
                                  tokens: seq<Token>, id: string, other: string)
    requires WellTagged(tokens)
    requires id !in s.entries && QualityKey(id) !in s.entries && !EndsWithQualitySuffix(id)
    requires other != id
    requires options.fontUrl != Some(other) && options.fontUrl != Some(QualityKey(other))
    ensures GetResult(GenerateWordCloud(s, host, options, net, tokens, id).0, other).1 == GetResult(s, other).1
  {
  }

  /** With a background image and no explicit overrides, size, maximum
      font size and blur all derive from the fitted background. */
  lemma BackgroundDerivedDefaults(options: WordCloudOptions, image: Image, font: Option<Typeface>)
    requires options.maxFontSize.None? && options.backgroundImageBlur.None?
    ensures var c := Configure(options, Some(image), font);
            var (w, h) := ProperImageSize(image.width, image.height);
            && c.size == Some((w, h))
            && c.maxFontSize == Some(Min(w, h))
            && c.blur == Some(Min(w, h) / 144)
  {
  }

  /** An explicit maximum font size or blur replaces the value derived from
      the background, because the options are applied after it. */
  lemma ExplicitOptionsOverrideBackground(options: WordCloudOptions, image: Option<Image>, font: Option<Typeface>)
    ensures var c := Configure(options, image, font);
            && (options.maxFontSize.Some? ==> c.maxFontSize == options.maxFontSize)
            && (options.backgroundImageBlur.Some? ==> c.blur == options.backgroundImageBlur)
  {
  }

  /** The explicit width and height have no effect on the configuration. */
  lemma ExplicitSizeIgnored(options: WordCloudOptions, width: Option<int>, height: Option<int>,
                            image: Option<Image>, font: Option<Typeface>)
    ensures Configure(options.(width := width, height := height), image, font) == Configure(options, image, font)
  {
  }

  /** Two generations with the same font URL download the font at most
      once: the second finds it in the cache. */
  lemma FontDownloadedOnce(s: Store, host: string, options: WordCloudOptions, net: Resolver,
                           tokens: seq<Token>, id1: string, id2: string)
    requires WellTagged(tokens)
    requires options.fontUrl.Some? && id1 != options.fontUrl.value && id2 != options.fontUrl.value
    requires QualityKey(id1) != options.fontUrl.value
    ensures var (t1, r1) := GenerateWordCloud(s, host, options, net, tokens, id1);
            var (t2, r2) := GenerateWordCloud(t1, host, options, net, tokens, id2);
            r1.ResultLink? ==> r2.ResultLink? && t2.fontFetches == t1.fontFetches
  {
  }
}

=== FILE: wrappers.dfy ===
/** The optional value used for every nullable field of the request and the
    builder configuration (C# `int?`, `string?`, `string[]?`). */
module Wrappers {

  datatype Option<+T> = None | Some(value: T) {

    /** The C# `??` operator: the value when present, otherwise `default`. */
    function GetOr(default: T): (r: T)
      ensures Some? ==> r == value
      ensures None? ==> r == default
    {
      match this
      case Some(v) => v
      case None => default
    }
  }
}
